=== FILE: README.md ===
# Connect Four (Puissance 4): board rules and turn state machine in Dafny

This project models the core of a browser Connect-Four game. Two players
take turns dropping pieces into the columns of a 6 x 7 grid. A piece falls
to the lowest empty cell of its column. A line of four or more of one
player's pieces through the last piece wins. A full board without a win is
a draw. The repository holds the same rules twice:

- the modular version: `js/Board.js` (the grid, gravity drop, win
  detection) and `js/Game.js` (turns, scores, names, and the input lock held
  while a dropped piece is animated), together with the two fields it keeps
  on its UI object (`animating`, `hoverCol`) and the guards of the UI's
  click and mouse-move handlers;
- the legacy single-class version `Puissance4` in `script.js`, which does
  the same in one synchronous step and has no animation.

Everything is modelled as immutable records and pure transition functions:

| Dafny module | file | what it holds |
|---|---|---|
| `Common` | `common.dfy` | players 1 and 2, positions, the score pair, the status identity (whose turn, who won, draw) |
| `Grid` | `grid.dfy` | the `seq<seq<int>>` grid with its shape, gravity and piece counts; the four axes and the `Ray` walk used by win detection |
| `Names` | `names.dfy` | JavaScript `String.prototype.trim` and the fallback names `Joueur 1` / `Joueur 2` |
| `Board` | `board.dfy` | `js/Board.js`: `reset`, `dropPiece`, `checkWin`, plus a declarative definition of a line of four through a cell (`LineThrough`) |
| `Game` | `game.dfy` | `js/Game.js`: constructor, `startGame`, `reset`, `handleDrop` split into `HandleDrop` (accept and lock) and `CompleteDrop` (the animation callback), the hover rule, and a `Session` that pairs the game with the drop in flight and replays page events |
| `Puissance4` | `puissance4.dfy` | `script.js`: `dropPiece`, the counting `checkWin`, `resetGame`, `startGame`, click and mouse-move guards, and lemmas that match it against the modular version |

Cells hold 0 for empty and 1 or 2 for a player. Row 0 is the top row. The
invariants proved for every reachable state are:

- gravity: every cell below an occupied cell is occupied;
- the reset button is disabled exactly while the game is on;
- the input lock is held exactly while one completion callback is pending;
- the hover preview only shows a column whose top cell is empty;
- the piece counts match strict alternation, with player 1 first;
- in the modular version, once a player has won, every cell of the stored winning run is on the board and holds that player's piece.

Each version also has a lemma that every event keeps its invariant. The
main cross-checks are these:

- the legacy boolean `checkWin` is true exactly when the modular
  `checkWin` returns a run;
- both are true exactly when, in the declarative sense, the cell (row, col)
  plus at least three of the player's cells make a line of four or more
  (neither version reads the cell (row, col) itself); once that cell holds
  the player, as the piece just dropped does, this is four of the player's
  cells in a row;
- a legacy click ends in the same state as the modular accept step followed
  by the completion step.

`checkWin` returns a value and has no other effect. Because the model is a
pure function, it cannot change the board.

## Model

| member | source | states |
|---|---|---|
| `Common.Other` | js/Game.js:72 | the toggle `currentPlayer === 1 ? 2 : 1` (also script.js:238) always gives the other player, never the same one |
| `Common.Scores.Win` | js/Game.js:64 | `scores[currentPlayer - 1]++` (also script.js:229) adds exactly one point to the winner and keeps the other player's score |
| `Board.LastMoves.Record` | js/Board.js:20 | `lastMoves[player - 1] = [row, col]` stores the placement as that player's last move and keeps the other player's entry |
| `Grid.Grid.Put` | js/Board.js:19 | `board[row][col] = player` (also script.js:215) writes `player` into that one cell, changes no other cell and keeps the grid's shape |
| `Board.Reset` | js/Board.js:8-14 | the grid has the requested shape and every cell is 0, both last moves are null, the winning run is empty; the result obeys gravity and holds no piece |
| `Grid.Empty` | js/Board.js:9-11 | an all-zero grid of the requested ROWS x COLS shape |
| `Board.Scan` | js/Board.js:17-23 | the bottom-up loop returns the first empty row met at or above `row`, and every row it passed over is occupied; none means the whole column up to `row` is occupied |
| `Board.LandingRow` | js/Board.js:16-24 | a row is returned exactly when the column is on the board and has an empty cell, and that row is the only one that is empty with every cell below it occupied (the largest empty row index) |
| `Board.DropPiece` | js/Board.js:16-25 | on a column with room the returned row is the largest empty row, that cell now holds `player` and no other cell changes, `lastMoves[player-1]` becomes (row, col) and the other player's entry is kept; on a full or off-board column the result is null and the board, including `lastMoves`, is unchanged |
| `Board.DropKeepsValid` | js/Board.js:17-21 | every drop keeps gravity (no occupied cell above an empty one) and keeps cells in {0, 1, 2} |
| `Board.DropCounts` | js/Board.js:19 | an accepted drop adds exactly one piece of the mover and none of the other player |
| `Grid.Ray` | js/Board.js:37-50 | the walk collects cells at offsets 0, 1, 2, ... along the direction, each on the board and holding `player`, and stops at the first cell that is off the board or not the player's |
| `Board.CheckWinFrom` | js/Board.js:35-54 | trying the axes from `i` on yields null exactly when every remaining axis collects fewer than four cells, otherwise the run of the first axis that collects four or more |
| `Board.CheckWin` | js/Board.js:27-55 | null exactly when none of horizontal, vertical, [1,1], [1,-1] collects four cells; otherwise the run of the first such axis in that order, of length at least 4 |
| `Board.RunIffLine` | js/Board.js:36-52 | the run collected on an axis has at least four cells exactly when (row, col) plus at least three of the player's cells on that axis make a line of four or more consecutive cells (declarative `LineThrough`; the centre is not read, as in the source) |
| `Board.CheckWinIffLine` | js/Board.js:27-55 | `checkWin` is null exactly when no axis has a `LineThrough`: (row, col) plus at least three of the player's cells in a line of four or more |
| `Board.LineThroughFour` | js/Board.js:36-52 | once (row, col) holds the player, `LineThrough` on an axis holds exactly when four or more consecutive cells of that line, (row, col) among them, all hold the player |
| `Board.WinRunShape` | js/Board.js:36-52 | a returned run has length at least 4, starts with (row, col), lies on a single axis, and every other cell is on the board and holds the player |
| `Board.WinRunHolds` | js/Game.js:55-58 | when the cell checked holds the player, as the piece just landed does, every cell of a run `checkWin` returns, and so every cell the callback stores as `winningCells`, holds that player's piece |
| `Names.Trim` | js/Game.js:24-25 | the result is a contiguous middle of the input with only white space removed at both ends, has no white space at either end, and is empty exactly when the input is all white space |
| `Names.NameOrDefault` | js/Game.js:24-25 | a blank entry gives the default name, any other entry gives its trimmed text |
| `Names.NameIsClean` | js/Game.js:24-25 | a chosen name is never empty and has no surrounding white space |
| `Game.Init` | js/Game.js:6-21 | the starting state has an empty board, player 1 to move, zero scores, default names, the game on and the reset button disabled, no preview, no lock, both last moves null and no winning run, and satisfies the game invariant |
| `Game.StartGame` | js/Game.js:23-32 | names come from the trimmed inputs with defaults for blank entries, both scores are zero, the board is empty, player 1 moves and the status shows player 1's turn, both last moves are null and the winning run is empty, the game is on with no lock, no preview and the reset button disabled |
| `Game.Reset` | js/Game.js:34-44 | the board is cleared (cells, last moves, winning run), player 1 moves, `gameOver`, `hoverCol` and `animating` are cleared, the reset button is disabled, scores and names are kept |
| `Game.HandleDrop` | js/Game.js:46-53 | ignored (state identical) when the game is over or input is locked, and on a column without room; an accepted drop places the piece on the landing row, sets the lock, clears the preview, and leaves the mover, scores, names and game-over flag unchanged |
| `Game.CompleteDrop` | js/Game.js:53-80 | on a win: game over, the winning run is stored, the mover's score rises by exactly 1, the other score is kept and the mover is not toggled; on a draw: game over and scores unchanged; otherwise the mover switches 1 and 2, and the preview is `col` exactly when the top cell of `col` is still empty, else null; the lock is always released and the grid is unchanged |
| `Game.Hover` | js/UI.js:154-171 | ignored while the game is over or input is locked; otherwise the preview is `col` exactly when the column is on the board with an empty top cell, else null, and nothing else changes |
| `Game.WinAt` | js/Game.js:55 | the completion callback's `checkWin(row, col, currentPlayer)` is null exactly when no axis has a `LineThrough` for the mover: the landing cell plus at least three of the mover's cells in a line of four or more |
| `Game.Next` | js/UI.js:23-34 | one page event dispatched to its handler; its own contract only keeps the 6 x 7 shape, and its meaning is fixed by `Game.InputGuards`, `Game.NextKeepsInv`, `Game.LockedIgnoresInput` and `Game.ScoresChangeOnlyOnWin` |
| `Game.InputGuards` | js/UI.js:143-152 | a click does nothing after the end of the game, during an animation or outside the board; board events do nothing while the setup form is shown; a disabled reset button, a second start and a completion with no drop in flight do nothing |
| `Game.NextKeepsInv` | js/Game.js:34-80 | every page event (start, click, mouse move, mouse leave, animation completion, reset click) keeps the game invariant and the rule that the lock is held exactly while one completion is pending |
| `Game.ReachableInv` | js/Game.js:19-80 | every state reachable from the loaded page satisfies the invariant, including `resetButton.disabled == !gameOver`, gravity, and a stored winning run made only of the winner's pieces |
| `Game.LockedIgnoresInput` | js/UI.js:143-155 | while a drop is animated or after the game is over, clicks and mouse moves change nothing |
| `Game.ScoresChangeOnlyOnWin` | js/Game.js:23-64 | scores change only when a completion finds a win (the mover gains one point) or when a match starts (both zero) |
| `Game.ReachableTurnOrder` | js/Game.js:34-77 | in every reachable state with the game on and no drop in flight, player 1 has as many pieces as player 2 when it is player 1's turn and one more when it is player 2's |
| `Puissance4.Init` | script.js:26-38 | the starting state has an empty 6 x 7 board, player 1 to move, no preview, zero scores, default names, and satisfies the invariant |
| `Puissance4.CountRayIsRayLength` | script.js:284-294 | the `count++` walk counts exactly the cells the modular board collects on the same walk |
| `Puissance4.AxisCountIsRunLength` | script.js:277-297 | the count of an axis equals the length of the run the modular board collects on that axis |
| `Puissance4.CheckWinFrom` | script.js:277-300 | trying the axes from `i` on is true exactly when some remaining axis counts four or more |
| `Puissance4.CheckWinMatchesBoard` | script.js:257-301 | the boolean `checkWin` is true exactly when the modular `Board.checkWin` returns a run rather than null |
| `Puissance4.CheckWinIffLine` | script.js:257-301 | `checkWin` is true exactly when some axis has a `LineThrough` for the player to move: (row, col) plus at least three of that player's cells in a line of four or more |
| `Puissance4.CountRay` | script.js:284-294 | the `count++` walk; it has no contract of its own, and `Puissance4.CountRayIsRayLength` fixes its value as the length of the modular walk |
| `Puissance4.CheckWin` | script.js:257-301 | true exactly when some axis counts four or more cells; `Puissance4.CheckWinIffLine` and `Puissance4.CheckWinMatchesBoard` relate it to the declarative `LineThrough` and to the modular `checkWin` |
| `Puissance4.Settle` | script.js:217-249 | after the write: on a win the game ends, the preview is cleared, the mover gains exactly one point and keeps the turn; on a draw the game ends with scores kept; otherwise the turn passes to the other player and the preview shows `col` when its top cell is empty and is null when it is full; the grid and names are never changed |
| `Puissance4.DropPiece` | script.js:212-254 | on a full or off-board column nothing changes; otherwise only the landing cell changes, to the mover; a win ends the game, clears the preview, adds exactly one point to the mover and keeps the mover; a draw ends the game, clears the preview and keeps the scores; otherwise the mover toggles and the preview is `col` exactly when its top cell is empty |
| `Puissance4.DropKeepsValid` | script.js:212-254 | a drop made while the game is on keeps gravity, cell values, the reset-button rule, the preview rule and the piece balance of strict alternation |
| `Puissance4.Click` | script.js:175-186 | a click is ignored once the game is over or off the board, and otherwise is exactly `dropPiece(col)` |
| `Puissance4.MouseMove` | script.js:189-209 | ignored once the game is over; otherwise the preview is `col` exactly when it is in range and its top cell is empty, else null, and nothing else changes |
| `Puissance4.ResetGame` | script.js:304-316 | an empty board, player 1 to move, the game on, no preview and the reset button disabled, with scores and names kept; the result satisfies the invariant |
| `Puissance4.StartGame` | script.js:319-328 | names come from the trimmed inputs with defaults, scores are [0, 0], and the board is reset |
| `Puissance4.Next` | script.js:98-113 | one page event dispatched to its handler; its own contract only keeps the 6 x 7 shape, and its meaning is fixed by `Puissance4.InputGuards` and `Puissance4.NextKeepsValid` |
| `Puissance4.InputGuards` | script.js:98-113 | there is no animation to complete; board events do nothing while the setup form is shown; a disabled reset button and a second start do nothing |
| `Puissance4.NextKeepsValid` | script.js:98-113 | every page event keeps the invariant of the single-class version |
| `Puissance4.WinAtMatches` | script.js:217 | the single-class `checkWin` finds a win at the landing cell exactly when the modular completion callback's `checkWin` returns a run |
| `Puissance4.SettleMatchesComplete` | script.js:218-250 | once the piece is written, the win / draw / next-turn outcome of `dropPiece` equals the modular completion callback's on every field both versions track |
| `Puissance4.SyncMatchesTwoPhase` | script.js:212-254 | a synchronous click ends in the same board, turn, scores, status, preview and reset-button state as the modular accept step followed by its completion callback; a click the modular version ignores is ignored here too |
| `Puissance4.ResetMatches` | script.js:304-316 | `resetGame` and the modular `reset` agree on every field both versions track |
| `Puissance4.HoverMatches` | script.js:189-209 | the two versions' hover rules agree whenever no drop is animated |

## Left out

- Canvas drawing (`drawBoard`, `drawStatus`, `drawScore`, the highlight rings, the hover disc) is output only and is not modelled.
- Pixel-to-column mapping (`Math.floor` over fractional offsets and the `x <= maxX` test) is left out. Clicks and mouse moves arrive as a column index, and the model keeps only the column range test.
- The `requestAnimationFrame` stepping of `animateDrop` is left out. It is replaced by one `AnimationDone` event that fires the completion callback once for the drop in flight.
- Sounds (`playDropSound`, `playWinSound`, `playDrawSound`) are fire-and-forget Web Audio calls with float parameters; they are no-ops here.
- Status strings and colours are left out. Only their identity is kept: whose turn, who won, or a draw. The colour follows from that identity.
- DOM wiring, dark mode, and `window.onload` are left out. Showing the board container after the start button is reduced to the `inSetup` flag of a session: board events are ignored while the setup form is shown.
- `js/AudioManager.js` is not part of this model.
- `Game.CompleteDrop` requires a board with at least one row. The requirement only keeps the proof simple. No reachable call breaks it: the completion only follows a drop that was accepted, and the game always builds a 6 x 7 board. On a zero-row board `dropPiece` returns null, so no completion ever runs.
- `Game.Next` and `Puissance4.Next` let the reset button act only when it is enabled, and the start button only while the setup form is shown. This matches the page, where the reset button is disabled during play and the setup form is hidden after the start.
- Names are Dafny strings, sequences of Unicode scalar values, while JavaScript strings are UTF-16 code units; a lone surrogate in a name input cannot be represented. Every character `trim` removes lies in the Basic Multilingual Plane, so well-formed input trims the same.
- Integer columns only: the source could receive a non-integer column, but every caller passes `Math.floor` of a number.

## Notes on sources

- Default names are `Joueur 1` / `Joueur 2`, as in js/Game.js:12-13, 24-25 and script.js:34-35, 320-321.
- Scores persist across `reset` and are cleared only by `startGame`, as both versions of the code do.
- An out-of-range column passed to `dropPiece` reads `board[row][col]` as `undefined`, which is never `=== 0`. So `dropPiece` returns null and writes nothing. The model treats such a column as one without room instead of forbidding it.
- Neither `checkWin` checks the centre cell itself. The centre is counted as part of every run, which is safe because both callers pass the cell just filled.

=== FILE: board.dfy ===
/** The `Board` class of the modular version: the grid, each player's last
    move, the highlighted winning run, gravity drop and win detection. */
module Board {
  import opened Common
  import opened Grid

  /** `lastMoves`: index `p - 1` holds player p's latest placement, or null. */
  datatype LastMoves = LastMoves(p1: Option<Pos>, p2: Option<Pos>) {

    function Of(p: Player): Option<Pos> {
      if p == 1 then p1 else p2
    }

    /** `lastMoves[p - 1] = [row, col]` */
    function Record(p: Player, at: Pos): (m: LastMoves)
      ensures m.Of(p) == Some(at)
      ensures m.Of(Other(p)) == Of(Other(p))
    {
      if p == 1 then LastMoves(Some(at), p2) else LastMoves(p1, Some(at))
    }
  }

  datatype State = State(grid: Grid, lastMoves: LastMoves, winningCells: seq<Pos>)

  /** The defaults of `constructor(rows = 6, cols = 7)`. */
  const DEFAULT_ROWS: nat := 6
  const DEFAULT_COLS: nat := 7

  /** A board on which play can proceed: the right shape, cells in {0, 1, 2},
      and gravity. */
  predicate Valid(b: State) {
    b.grid.Valid() && b.grid.CellsOk() && b.grid.Gravity()
  }

  /** `constructor(rows, cols)` followed by `reset()`, and `reset()` itself on a
      board of that size: every cell empty, no last moves, no winning run. */
  function Reset(rows: nat, cols: nat): (b: State)
    ensures b.grid.Valid() && b.grid.rows == rows && b.grid.cols == cols
    ensures forall r, c :: b.grid.InBounds(r, c) ==> b.grid.cells[r][c] == EMPTY
    ensures b.lastMoves.Of(1) == None && b.lastMoves.Of(2) == None
    ensures b.winningCells == []
    ensures Valid(b)
    ensures b.grid.Count(1) == 0 && b.grid.Count(2) == 0
  {
    EmptyIsClean(rows, cols);
    State(Empty(rows, cols), LastMoves(None, None), [])
  }

  // ---------------------------------------------------------------------
  // dropPiece

  /** Column `col` exists and has an empty cell. */
  predicate HasRoom(g: Grid, col: int)
    requires g.Valid()
  {
    0 <= col < g.cols && exists r :: 0 <= r < g.rows && g.cells[r][col] == EMPTY
  }

  /** `row` is where a piece dropped into `col` comes to rest: the largest
      empty row index of that column. */
  predicate IsLanding(g: Grid, col: int, row: int)
    requires g.Valid()
  {
    g.InBounds(row, col) && g.cells[row][col] == EMPTY
    && forall k :: row < k < g.rows ==> g.cells[k][col] != EMPTY
  }

  /** The loop `for (row = ROWS - 1; row >= 0; row--)` of `dropPiece`, from
      `row` upward: the first empty cell met, or none. */
  function Scan(g: Grid, col: int, row: int): (r: Option<nat>)
    requires g.Valid() && 0 <= col < g.cols && -1 <= row < g.rows
    ensures r.Some? ==> r.value <= row && g.cells[r.value][col] == EMPTY
    ensures r.Some? ==> forall k :: r.value < k <= row ==> g.cells[k][col] != EMPTY
    ensures r.None? ==> forall k :: 0 <= k <= row ==> g.cells[k][col] != EMPTY
    decreases row + 1
  {
    if row < 0 then None
    else if g.cells[row][col] == EMPTY then Some(row)
    else Scan(g, col, row - 1)
  }

  /** The row `dropPiece` would fill. A column outside the grid reads as
      `undefined`, which is never `=== 0`, so it has no landing row. */
  function LandingRow(g: Grid, col: int): (r: Option<nat>)
    requires g.Valid()
    ensures r.Some? <==> HasRoom(g, col)
    ensures forall row :: IsLanding(g, col, row) <==> r == Some(row)
  {
    if 0 <= col < g.cols then Scan(g, col, g.rows - 1) else None
  }

  /** The result of `dropPiece`: the board after the call and the returned row. */
  datatype Drop = Drop(board: State, row: Option<nat>)

  /** `dropPiece(col, player)`: the piece falls to the largest empty row of
      the column, which becomes the player's last move. A full column, or one
      outside the grid, yields null and leaves the board as it was. */
  function DropPiece(b: State, col: int, player: Player): (d: Drop)
    requires b.grid.Valid()
    ensures d.board.grid.Valid() && d.board.grid.rows == b.grid.rows && d.board.grid.cols == b.grid.cols
    ensures d.row.Some? <==> HasRoom(b.grid, col)
    ensures d.row.None? ==> d.board == b
    ensures d.row.Some? ==> IsLanding(b.grid, col, d.row.value)
    ensures d.row.Some? ==> forall r, c :: b.grid.InBounds(r, c) ==>
              d.board.grid.cells[r][c] == (if r == d.row.value && c == col then player else b.grid.cells[r][c])
    ensures d.row.Some? ==> d.board.lastMoves.Of(player) == Some(Pos(d.row.value, col))
    ensures d.board.lastMoves.Of(Other(player)) == b.lastMoves.Of(Other(player))
    ensures d.board.winningCells == b.winningCells
  {
    match LandingRow(b.grid, col)
    case None => Drop(b, None)
    case Some(row) =>
      Drop(State(b.grid.Put(row, col, player), b.lastMoves.Record(player, Pos(row, col)), b.winningCells), Some(row))
  }

  /** Gravity and the cell range survive every drop. */
  lemma DropKeepsValid(b: State, col: int, player: Player)
    requires Valid(b)
    ensures Valid(DropPiece(b, col, player).board)
  {
    var d := DropPiece(b, col, player);
    if d.row.Some? {
      var g, g' := b.grid, d.board.grid;
      var L := d.row.value;
      forall r1, r2, c | 0 <= r1 <= r2 < g'.rows && 0 <= c < g'.cols && g'.cells[r1][c] != EMPTY
        ensures g'.cells[r2][c] != EMPTY
      {
        if c == col && r2 != L && r1 != L {
          assert g.cells[r1][c] != EMPTY;
        }
      }
    }
  }

  /** Each accepted drop adds one piece of the mover and no other piece. */
  lemma DropCounts(b: State, col: int, player: Player)
    requires b.grid.Valid() && HasRoom(b.grid, col)
    ensures DropPiece(b, col, player).board.grid.Count(player) == b.grid.Count(player) + 1
    ensures DropPiece(b, col, player).board.grid.Count(Other(player)) == b.grid.Count(Other(player))
  {
    var row := DropPiece(b, col, player).row.value;
    CountCellsUpdate(b.grid.cells, row, col, player, player);
    CountCellsUpdate(b.grid.cells, row, col, player, Other(player));
  }

  // ---------------------------------------------------------------------
  // checkWin

  /** The cells of one axis collected by `checkWin`: the centre first, then
      the walk along the first direction, then the walk along the second. */
  function Run(g: Grid, center: Pos, a: Axis, player: int): seq<Pos>
    requires g.Valid() && Unit(a.fwd) && Unit(a.back)
  {
    [center] + Ray(g, Along(center, a.fwd, 1), a.fwd, player) + Ray(g, Along(center, a.back, 1), a.back, player)
  }

  function AxisRun(g: Grid, center: Pos, i: int, player: int): seq<Pos>
    requires g.Valid() && 0 <= i < |Axes|
  {
    AxesAreOpposite(i);
    Run(g, center, Axes[i], player)
  }

  /** The `for (const direction of directions)` loop from axis `i` on: the
      first axis whose run reaches four cells, or null. */
  function CheckWinFrom(g: Grid, center: Pos, player: int, i: int): (w: Option<seq<Pos>>)
    requires g.Valid() && 0 <= i <= |Axes|
    ensures w.None? <==> forall j :: i <= j < |Axes| ==> |AxisRun(g, center, j, player)| < 4
    ensures w.Some? ==> exists j :: i <= j < |Axes| && w.value == AxisRun(g, center, j, player)
                                 && |w.value| >= 4
                                 && forall k :: i <= k < j ==> |AxisRun(g, center, k, player)| < 4
    decreases |Axes| - i
  {
    if i == |Axes| then None
    else
      var cells := AxisRun(g, center, i, player);
      if |cells| >= 4 then
        assert i <= i < |Axes| && cells == AxisRun(g, center, i, player);
        Some(cells)
      else
        CheckWinFrom(g, center, player, i + 1)
  }

  /** `checkWin(row, col, player)`: the run of the first axis, in the order
      horizontal, vertical, `[1, 1]`, `[1, -1]`, that holds at least four
      cells counting (row, col), or null when no axis does. It returns a
      value and has no other effect, so the board is unchanged. */
  function CheckWin(b: State, row: int, col: int, player: int): (w: Option<seq<Pos>>)
    requires b.grid.Valid()
    ensures w.None? <==> forall i :: 0 <= i < |Axes| ==> |AxisRun(b.grid, Pos(row, col), i, player)| < 4
    ensures w.Some? ==> exists i :: 0 <= i < |Axes| && w.value == AxisRun(b.grid, Pos(row, col), i, player)
                                 && forall j :: 0 <= j < i ==> |AxisRun(b.grid, Pos(row, col), j, player)| < 4
    ensures w.Some? ==> |w.value| >= 4
  {
    CheckWinFrom(b.grid, Pos(row, col), player, 0)
  }

  // ---------------------------------------------------------------------
  // What a winning run is, independently of how it is collected

  /** Cells `lo..hi` steps along `d` from `center`, apart from the centre,
      all hold `player`, and that stretch spans at least four cells. */
  predicate Segment(g: Grid, center: Pos, player: int, d: Dir, lo: int, hi: int)
    requires g.Valid()
  {
    lo <= 0 <= hi && hi - lo >= 3
    && forall k :: lo <= k <= hi && k != 0 ==> Holds(g, Along(center, d, k), player)
  }

  /** Four or more aligned cells through `center` along direction `d`: the
      centre plus at least three of the player's cells on that line. The
      centre itself is not read, as neither `checkWin` reads it; see
      `LineThroughFour` for the reading once the centre holds the player. */
  ghost predicate LineThrough(g: Grid, center: Pos, player: int, d: Dir)
    requires g.Valid()
  {
    exists lo, hi :: Segment(g, center, player, d, lo, hi)
  }

  /** Cells `lo..hi` steps along `d` from `center`, the centre included,
      all hold `player`, and that stretch spans at least four cells. */
  predicate Filled(g: Grid, center: Pos, player: int, d: Dir, lo: int, hi: int)
    requires g.Valid()
  {
    lo <= 0 <= hi && hi - lo >= 3
    && forall k :: lo <= k <= hi ==> Holds(g, Along(center, d, k), player)
  }

  /** Once the centre holds `player`, as the piece just dropped does,
      `LineThrough` is exactly four or more consecutive cells of the player,
      the centre among them. */
  lemma LineThroughFour(g: Grid, center: Pos, player: int, d: Dir)
    requires g.Valid() && Holds(g, center, player)
    ensures LineThrough(g, center, player, d) <==> exists lo, hi :: Filled(g, center, player, d, lo, hi)
  {
    if LineThrough(g, center, player, d) {
      var lo, hi :| Segment(g, center, player, d, lo, hi);
      forall k | lo <= k <= hi
        ensures Holds(g, Along(center, d, k), player)
      {
        if k == 0 {
          assert Along(center, d, k) == center;
        }
      }
      assert Filled(g, center, player, d, lo, hi);
    }
    if exists lo, hi :: Filled(g, center, player, d, lo, hi) {
      var lo, hi :| Filled(g, center, player, d, lo, hi);
      assert Segment(g, center, player, d, lo, hi);
    }
  }

  /** `p` is one of the cells `center + m * a.fwd`. */
  ghost predicate OnAxis(p: Pos, center: Pos, a: Axis) {
    exists m :: p == Along(center, a.fwd, m)
  }

  lemma AlongBack(p: Pos, d: Dir, e: Dir, k: int)
    requires e == Dir(-d.dr, -d.dc)
    ensures Along(p, e, k) == Along(p, d, -k)
  {
  }

  /** The cells walked from the centre along `d` sit at offsets 1, 2, ...
      and the walk stops at the first offset that is off the board or not
      held by `player`. */
  lemma RayOffsets(g: Grid, center: Pos, d: Dir, player: int)
    requires g.Valid() && Unit(d)
    ensures var f := Ray(g, Along(center, d, 1), d, player);
            && (forall k :: 0 <= k < |f| ==> f[k] == Along(center, d, k + 1))
            && !Holds(g, Along(center, d, |f| + 1), player)
  {
    var f := Ray(g, Along(center, d, 1), d, player);
    forall k | 0 <= k < |f|
      ensures f[k] == Along(center, d, k + 1)
    {
      AlongTwice(center, d, 1, k);
    }
    AlongTwice(center, d, 1, |f|);
  }

  /** An axis whose two directions are opposite unit steps. */
  predicate Straight(a: Axis) {
    Unit(a.fwd) && a.back == Dir(-a.fwd.dr, -a.fwd.dc)
  }

  /** The cells walked along the opposite direction `e` sit at offsets
      -1, -2, ... of `d`, and that walk stops at the first offset that is off
      the board or not held by `player`. */
  lemma BackOffsets(g: Grid, center: Pos, d: Dir, e: Dir, player: int)
    requires g.Valid() && Unit(e) && e == Dir(-d.dr, -d.dc)
    ensures var bk := Ray(g, Along(center, e, 1), e, player);
            && (forall k :: 0 <= k < |bk| ==> bk[k] == Along(center, d, -(k + 1)))
            && !Holds(g, Along(center, d, -(|bk| + 1)), player)
  {
    RayOffsets(g, center, e, player);
    var bk := Ray(g, Along(center, e, 1), e, player);
    forall k | 0 <= k < |bk|
      ensures bk[k] == Along(center, d, -(k + 1))
    {
      AlongBack(center, d, e, k + 1);
    }
    AlongBack(center, d, e, |bk| + 1);
  }

  /** On a straight axis, the collected run reaches four cells exactly when
      `Segment` holds: the centre plus at least three of the player's cells
      make a line of four or more. */
  lemma RunIffSegment(g: Grid, center: Pos, a: Axis, player: int)
    requires g.Valid() && Straight(a)
    ensures |Run(g, center, a, player)| >= 4 <==> LineThrough(g, center, player, a.fwd)
  {
    RayOffsets(g, center, a.fwd, player);
    BackOffsets(g, center, a.fwd, a.back, player);
    var f := Ray(g, Along(center, a.fwd, 1), a.fwd, player);
    var bk := Ray(g, Along(center, a.back, 1), a.back, player);
    if |Run(g, center, a, player)| >= 4 {
      forall k | -|bk| <= k <= |f| && k != 0
        ensures Holds(g, Along(center, a.fwd, k), player)
      {
        if k > 0 {
          assert f[k - 1] == Along(center, a.fwd, k);
        } else {
          assert bk[-k - 1] == Along(center, a.fwd, k);
        }
      }
      assert Segment(g, center, player, a.fwd, -|bk|, |f|);
    }
    if LineThrough(g, center, player, a.fwd) {
      var lo, hi :| Segment(g, center, player, a.fwd, lo, hi);
      assert |f| >= hi && |bk| >= -lo;
    }
  }

  /** The run `checkWin` collects on axis `i` reaches four cells exactly when
      four or more cells through the centre are aligned on that axis. */
  lemma RunIffLine(g: Grid, center: Pos, i: int, player: int)
    requires g.Valid() && 0 <= i < |Axes|
    ensures |AxisRun(g, center, i, player)| >= 4 <==> LineThrough(g, center, player, Axes[i].fwd)
  {
    AxesAreOpposite(i);
    RunIffSegment(g, center, Axes[i], player);
  }

  /** `checkWin` returns null exactly when no axis has a `LineThrough` for
      `player` at (row, col). */
  lemma CheckWinIffLine(b: State, row: int, col: int, player: int)
    requires b.grid.Valid()
    ensures CheckWin(b, row, col, player).None?
        <==> forall i :: 0 <= i < |Axes| ==> !LineThrough(b.grid, Pos(row, col), player, Axes[i].fwd)
  {
    forall i | 0 <= i < |Axes| {
      RunIffLine(b.grid, Pos(row, col), i, player);
    }
  }

  /** Cell `k` of a run: the centre, then the forward walk, then the
      backward walk. */
  lemma RunIndex(c: Pos, f: seq<Pos>, bk: seq<Pos>, k: int)
    requires 0 <= k < 1 + |f| + |bk|
    ensures ([c] + f + bk)[k] == if k == 0 then c else if k <= |f| then f[k - 1] else bk[k - 1 - |f|]
  {
  }

  /** A cell `m` steps from the centre is on the axis. */
  lemma OnAxisAt(p: Pos, center: Pos, a: Axis, m: int)
    requires p == Along(center, a.fwd, m)
    ensures OnAxis(p, center, a)
  {
  }

  /** Every cell of a run on a straight axis is on that axis, and all but
      the centre are on the board and hold `player`. */
  lemma RunShape(g: Grid, center: Pos, a: Axis, player: int)
    requires g.Valid() && Straight(a)
    ensures var w := Run(g, center, a, player);
            && w[0] == center
            && (forall k :: 1 <= k < |w| ==> Holds(g, w[k], player))
            && (forall k :: 0 <= k < |w| ==> OnAxis(w[k], center, a))
  {
    RayOffsets(g, center, a.fwd, player);
    BackOffsets(g, center, a.fwd, a.back, player);
    var f := Ray(g, Along(center, a.fwd, 1), a.fwd, player);
    var bk := Ray(g, Along(center, a.back, 1), a.back, player);
    var w := Run(g, center, a, player);
    assert w == [center] + f + bk;
    forall k | 0 <= k < |w|
      ensures OnAxis(w[k], center, a)
      ensures k >= 1 ==> Holds(g, w[k], player)
    {
      RunIndex(center, f, bk, k);
      if k == 0 {
        OnAxisAt(w[k], center, a, 0);
      } else if k <= |f| {
        OnAxisAt(f[k - 1], center, a, (k - 1) + 1);
      } else {
        var j := k - 1 - |f|;
        OnAxisAt(bk[j], center, a, -(j + 1));
      }
    }
  }

  /** When the cell (row, col) itself holds `player`, as it does for the
      piece just dropped, a winning run holds the player's piece in every
      one of its cells. */
  lemma WinRunHolds(b: State, row: int, col: int, player: int)
    requires b.grid.Valid() && Holds(b.grid, Pos(row, col), player)
    ensures CheckWin(b, row, col, player).Some? ==>
              forall k :: 0 <= k < |CheckWin(b, row, col, player).value| ==>
                Holds(b.grid, CheckWin(b, row, col, player).value[k], player)
  {
    var w := CheckWin(b, row, col, player);
    if w.Some? {
      var cells := w.value;
      WinRunShape(b, row, col, player);
      forall k | 0 <= k < |cells|
        ensures Holds(b.grid, cells[k], player)
      {
        if k == 0 {
          assert cells[0] == Pos(row, col);
        }
      }
    }
  }

  /** A winning run starts at (row, col), lies on a single axis, and every
      other cell of it is on the board and holds `player`. */
  lemma WinRunShape(b: State, row: int, col: int, player: int)
    requires b.grid.Valid() && CheckWin(b, row, col, player).Some?
    ensures var w := CheckWin(b, row, col, player).value;
            && |w| >= 4 && w[0] == Pos(row, col)
            && (forall k :: 1 <= k < |w| ==> Holds(b.grid, w[k], player))
            && exists i :: 0 <= i < |Axes| && forall k :: 0 <= k < |w| ==> OnAxis(w[k], Pos(row, col), Axes[i])
  {
    var w := CheckWin(b, row, col, player).value;
    var i :| 0 <= i < |Axes| && w == AxisRun(b.grid, Pos(row, col), i, player);
    AxesAreOpposite(i);
    RunShape(b.grid, Pos(row, col), Axes[i], player);
  }
}

=== FILE: common.dfy ===
/** Values shared by both versions of the game: players, cell positions,
    the score pair and the identity shown in the status line. */
module Common {

  /** The JavaScript `null` of a move, column or row that may be absent. */
  datatype Option<+T> = None | Some(value: T)

  /** A player number as stored in a grid cell; 0 in a cell means empty. */
  type Player = p: int | p == 1 || p == 2 witness 1

  const EMPTY: int := 0

  /** The toggle `currentPlayer === 1 ? 2 : 1`. */
  function Other(p: Player): (q: Player)
    ensures q != p
  {
    if p == 1 then 2 else 1
  }

  /** A `[row, col]` pair of the source. */
  datatype Pos = Pos(row: int, col: int)

  /** The `scores` array `[player 1, player 2]`. */
  datatype Scores = Scores(p1: nat, p2: nat) {

    function Of(p: Player): nat {
      if p == 1 then p1 else p2
    }

    /** `scores[p - 1]++`: the winner gains one point, the other score stays. */
    function Win(p: Player): (r: Scores)
      ensures r.Of(p) == Of(p) + 1
      ensures r.Of(Other(p)) == Of(Other(p))
    {
      if p == 1 then Scores(p1 + 1, p2) else Scores(p1, p2 + 1)
    }
  }

  const ZERO_SCORES: Scores := Scores(0, 0)

  /** Who the status line speaks about; its colour follows from this
      (red for player 1, yellow for player 2, green for a draw). */
  datatype Status = TurnOf(player: Player) | WonBy(winner: Player) | Drawn
}

=== FILE: game.dfy ===
/** The `Game` controller of the modular version, with the two fields it
    shares with its UI object (`ui.animating`, `ui.hoverCol`) and the disabled
    flag of the reset button. `handleDrop` is split in two transitions: the
    drop is accepted and locks input, and the completion callback of the drop
    animation decides win, draw or next turn. */
module Game {
  import opened Common
  import opened Grid
  import Board
  import opened Names

  /** `new Board()` uses the default size. */
  const ROWS: nat := Board.DEFAULT_ROWS
  const COLS: nat := Board.DEFAULT_COLS

  datatype State = State(
    board: Board.State,
    currentPlayer: Player,
    player1Name: string,
    player2Name: string,
    scores: Scores,
    gameOver: bool,
    status: Status,
    /** `ui.resetButton.disabled` */
    resetDisabled: bool,
    /** `ui.animating`: the input lock held while a drop is animated. */
    animating: bool,
    /** `ui.hoverCol`: the previewed column, or null. */
    hoverCol: Option<int>)

  /** The board has the size `new Board()` gives it. */
  predicate Shaped(s: State) {
    s.board.grid.Valid() && s.board.grid.rows == ROWS && s.board.grid.cols == COLS
  }

  /** The state every transition keeps. */
  predicate Valid(s: State) {
    && Shaped(s)
    && Board.Valid(s.board)
    && s.resetDisabled == !s.gameOver
    && (s.animating ==> !s.gameOver && s.hoverCol.None?)
    && (s.hoverCol.Some? ==> s.board.grid.TopEmpty(s.hoverCol.value))
    && (!s.gameOver ==> s.status == TurnOf(s.currentPlayer))
    && (s.gameOver ==> s.status == WonBy(s.currentPlayer) || s.status == Drawn)
    && (s.board.winningCells != [] ==> s.status == WonBy(s.currentPlayer))
    && (s.status.WonBy? ==> s.gameOver && |s.board.winningCells| >= 4)
    && (s.status.WonBy? ==> forall k :: 0 <= k < |s.board.winningCells| ==>
          Holds(s.board.grid, s.board.winningCells[k], s.currentPlayer))
    && Balanced(s.board.grid, if s.gameOver || s.animating then Other(s.currentPlayer) else s.currentPlayer)
  }

  /** The constructor, together with the UI fields it starts from. */
  function Init(): (s: State)
    ensures Valid(s)
    ensures forall r, c :: s.board.grid.InBounds(r, c) ==> s.board.grid.cells[r][c] == EMPTY
    ensures s.currentPlayer == 1 && s.scores == ZERO_SCORES && !s.gameOver && s.resetDisabled
    ensures s.player1Name == DEFAULT_NAME_1 && s.player2Name == DEFAULT_NAME_2
    ensures s.hoverCol.None? && !s.animating && s.status == TurnOf(1)
    ensures s.board.lastMoves == Board.LastMoves(None, None) && s.board.winningCells == []
  {
    State(Board.Reset(ROWS, COLS), 1, DEFAULT_NAME_1, DEFAULT_NAME_2, ZERO_SCORES,
          false, TurnOf(1), true, false, None)
  }

  /** `reset()`: a cleared board with player 1 to move; the names and the
      scores are kept. */
  function Reset(s: State): (r: State)
    ensures r.board.grid.Valid() && r.board.grid.rows == s.board.grid.rows && r.board.grid.cols == s.board.grid.cols
    ensures forall i, j :: r.board.grid.InBounds(i, j) ==> r.board.grid.cells[i][j] == EMPTY
    ensures r.board.lastMoves.Of(1) == None && r.board.lastMoves.Of(2) == None && r.board.winningCells == []
    ensures r.currentPlayer == 1 && !r.gameOver && r.hoverCol.None? && !r.animating && r.resetDisabled
    ensures r.status == TurnOf(1)
    ensures r.scores == s.scores && r.player1Name == s.player1Name && r.player2Name == s.player2Name
    ensures Shaped(s) ==> Valid(r)
  {
    s.(board := Board.Reset(s.board.grid.rows, s.board.grid.cols), currentPlayer := 1, gameOver := false,
       hoverCol := None, animating := false, status := TurnOf(1), resetDisabled := true)
  }

  /** `startGame()`: names taken from the two inputs, trimmed, with the
      defaults for blank entries; both scores back to zero; then `reset()`. */
  function StartGame(s: State, input1: string, input2: string): (r: State)
    ensures r.player1Name == NameOrDefault(input1, DEFAULT_NAME_1)
    ensures r.player2Name == NameOrDefault(input2, DEFAULT_NAME_2)
    ensures r.scores == ZERO_SCORES
    ensures r.board.grid.Valid() && r.board.grid.rows == s.board.grid.rows && r.board.grid.cols == s.board.grid.cols
    ensures forall i, j :: r.board.grid.InBounds(i, j) ==> r.board.grid.cells[i][j] == EMPTY
    ensures r.board.lastMoves.Of(1) == None && r.board.lastMoves.Of(2) == None && r.board.winningCells == []
    ensures r.currentPlayer == 1 && !r.gameOver && r.hoverCol.None? && !r.animating && r.resetDisabled
    ensures r.status == TurnOf(1)
    ensures Shaped(s) ==> Valid(r)
  {
    Reset(s.(player1Name := NameOrDefault(input1, DEFAULT_NAME_1),
             player2Name := NameOrDefault(input2, DEFAULT_NAME_2),
             scores := ZERO_SCORES))
  }

  /** The first half of `handleDrop(col)`: the state after the synchronous
      part, and the cell whose animation is now in flight, if any. */
  datatype Accepted = Accepted(state: State, landed: Option<Pos>)

  /** `handleDrop(col)` up to `animateDrop`: ignored after the end of the game,
      while a drop is animated, and on a column without room; otherwise the
      piece is placed, the hover preview cleared and input locked. */
  function HandleDrop(s: State, col: int): (r: Accepted)
    requires s.board.grid.Valid()
    ensures s.gameOver || s.animating ==> r == Accepted(s, None)
    ensures !Board.HasRoom(s.board.grid, col) ==> r == Accepted(s, None)
    ensures r.landed.Some? <==> !s.gameOver && !s.animating && Board.HasRoom(s.board.grid, col)
    ensures r.landed.Some? ==>
              && r.landed.value.col == col
              && Board.IsLanding(s.board.grid, col, r.landed.value.row)
              && r.state.board == Board.DropPiece(s.board, col, s.currentPlayer).board
              && r.state.animating && r.state.hoverCol.None?
              && r.state.currentPlayer == s.currentPlayer && r.state.scores == s.scores
              && r.state.gameOver == s.gameOver && r.state.status == s.status
              && r.state.resetDisabled == s.resetDisabled
              && r.state.player1Name == s.player1Name && r.state.player2Name == s.player2Name
  {
    if s.gameOver || s.animating then Accepted(s, None)
    else
      var d := Board.DropPiece(s.board, col, s.currentPlayer);
      match d.row
      case None => Accepted(s, None)
      case Some(row) => Accepted(s.(board := d.board, hoverCol := None, animating := true), Some(Pos(row, col)))
  }

  /** The run `checkWin` finds for the mover through `at`, or null. */
  function WinAt(s: State, at: Pos): (w: Option<seq<Pos>>)
    requires s.board.grid.Valid()
    ensures w.None? <==> forall i :: 0 <= i < |Axes| ==> !Board.LineThrough(s.board.grid, at, s.currentPlayer, Axes[i].fwd)
  {
    Board.CheckWinIffLine(s.board, at.row, at.col, s.currentPlayer);
    Board.CheckWin(s.board, at.row, at.col, s.currentPlayer)
  }

  /** The animation completion callback of `handleDrop` for the piece that
      landed at `at`. */
  function CompleteDrop(s: State, at: Pos): (r: State)
    requires s.board.grid.Valid() && s.board.grid.rows > 0
    ensures !r.animating
    ensures r.board.grid == s.board.grid && r.board.lastMoves == s.board.lastMoves
    ensures r.player1Name == s.player1Name && r.player2Name == s.player2Name
    // a win
    ensures WinAt(s, at).Some? ==>
              && r.gameOver && !r.resetDisabled
              && r.board.winningCells == WinAt(s, at).value
              && r.scores.Of(s.currentPlayer) == s.scores.Of(s.currentPlayer) + 1
              && r.scores.Of(Other(s.currentPlayer)) == s.scores.Of(Other(s.currentPlayer))
              && r.currentPlayer == s.currentPlayer && r.status == WonBy(s.currentPlayer)
              && r.hoverCol == s.hoverCol
    // a draw
    ensures WinAt(s, at).None? && s.board.grid.Full() ==>
              && r.gameOver && !r.resetDisabled && r.scores == s.scores
              && r.board.winningCells == s.board.winningCells
              && r.currentPlayer == s.currentPlayer && r.status == Drawn
              && r.hoverCol == s.hoverCol
    // the game goes on
    ensures WinAt(s, at).None? && !s.board.grid.Full() ==>
              && r.gameOver == s.gameOver && r.resetDisabled == s.resetDisabled && r.scores == s.scores
              && r.board.winningCells == s.board.winningCells
              && r.currentPlayer == Other(s.currentPlayer) && r.status == TurnOf(Other(s.currentPlayer))
              && (r.hoverCol == Some(at.col) <==> s.board.grid.TopEmpty(at.col))
              && (r.hoverCol.None? <==> !s.board.grid.TopEmpty(at.col))
  {
    var p := s.currentPlayer;
    match WinAt(s, at)
    case Some(cells) =>
      s.(gameOver := true, board := s.board.(winningCells := cells), resetDisabled := false,
         status := WonBy(p), scores := s.scores.Win(p), animating := false)
    case None =>
      if s.board.grid.Full() then
        s.(gameOver := true, resetDisabled := false, status := Drawn, animating := false)
      else
        s.(currentPlayer := Other(p), hoverCol := if s.board.grid.TopEmpty(at.col) then Some(at.col) else None,
           status := TurnOf(Other(p)), animating := false)
  }

  /** `ui.handleMouseMove` with the mouse position already mapped to a column:
      ignored after the end of the game and during an animation; otherwise
      the preview shows the column if it is on the board and not full. */
  function Hover(s: State, col: int): (r: State)
    requires s.board.grid.Valid() && s.board.grid.rows > 0
    ensures s.gameOver || s.animating ==> r == s
    ensures !s.gameOver && !s.animating ==>
              && r == s.(hoverCol := r.hoverCol)
              && (r.hoverCol == Some(col) <==> s.board.grid.TopEmpty(col))
              && (r.hoverCol.None? <==> !s.board.grid.TopEmpty(col))
  {
    if s.gameOver || s.animating then s
    else s.(hoverCol := if s.board.grid.TopEmpty(col) then Some(col) else None)
  }

  // ---------------------------------------------------------------------
  // The session: the game together with the animation in flight

  /** The game, whether the setup form is still shown (the board container
      is hidden until `startGame`), and the landing cell of the drop whose
      completion callback has not fired yet. */
  datatype Session = Session(game: State, inSetup: bool, inFlight: Option<Pos>)

  /** Inputs the page delivers, with mouse positions already mapped to
      columns. */
  datatype Event =
    | Start(name1: string, name2: string)
    | Click(col: int)
    | MouseMove(col: int)
    | MouseLeave
    | AnimationDone
    | ResetClick

  /** The page after the constructor ran. */
  function Boot(): Session {
    Session(Init(), true, None)
  }

  /** The lock is held exactly while a completion callback is pending, and
      the pending piece is the mover's, on the board. */
  predicate Inv(ss: Session) {
    && Valid(ss.game)
    && (ss.game.animating <==> ss.inFlight.Some?)
    && (ss.inSetup ==> ss.inFlight.None?)
    && (ss.inFlight.Some? ==>
          && ss.game.board.grid.InBounds(ss.inFlight.value.row, ss.inFlight.value.col)
          && ss.game.board.grid.cells[ss.inFlight.value.row][ss.inFlight.value.col] == ss.game.currentPlayer)
  }

  /** One event: the start button only works on the setup form, the board
      only once it is shown, a click only outside the lock and for a column on
      the board (`ui.handleClick`), the reset button only when enabled, and
      the completion callback fires once for the drop in flight. */
  function Next(ss: Session, e: Event): (r: Session)
    requires Shaped(ss.game)
    ensures Shaped(r.game)
  {
    match e
    case Start(n1, n2) =>
      if ss.inSetup then Session(StartGame(ss.game, n1, n2), false, ss.inFlight) else ss
    case Click(col) =>
      if ss.inSetup || ss.game.gameOver || ss.game.animating || !(0 <= col < COLS) then ss
      else
        var a := HandleDrop(ss.game, col);
        Session(a.state, false, a.landed)
    case MouseMove(col) =>
      if ss.inSetup then ss else ss.(game := Hover(ss.game, col))
    case MouseLeave =>
      if ss.inSetup then ss else ss.(game := ss.game.(hoverCol := None))
    case AnimationDone =>
      if ss.inFlight.None? then ss
      else Session(CompleteDrop(ss.game, ss.inFlight.value), ss.inSetup, None)
    case ResetClick =>
      if ss.game.resetDisabled then ss else ss.(game := Reset(ss.game))
  }

  /** The guards of the page: board events do nothing while the setup form
      is shown; a click does nothing after the end of the game, during an
      animation or outside the board (`ui.handleClick`); a disabled reset
      button, a second start and a completion with no drop in flight do
      nothing. */
  lemma InputGuards(ss: Session, e: Event)
    requires Shaped(ss.game)
    ensures ss.inSetup && (e.Click? || e.MouseMove? || e.MouseLeave?) ==> Next(ss, e) == ss
    ensures e.Click? && (ss.game.gameOver || ss.game.animating || !(0 <= e.col < COLS)) ==> Next(ss, e) == ss
    ensures ss.game.resetDisabled && e.ResetClick? ==> Next(ss, e) == ss
    ensures e.Start? && !ss.inSetup ==> Next(ss, e) == ss
    ensures e.AnimationDone? && ss.inFlight.None? ==> Next(ss, e) == ss
  {
  }

  /** The session after a sequence of events from the freshly loaded page. */
  function Replay(events: seq<Event>): (r: Session)
    ensures Shaped(r.game)
  {
    if |events| == 0 then Boot() else Next(Replay(events[..|events| - 1]), events[|events| - 1])
  }

  lemma BootInv()
    ensures Inv(Boot())
  {
  }

  lemma AcceptKeepsInv(ss: Session, col: int)
    requires Inv(ss) && !ss.game.gameOver && !ss.game.animating
    ensures var a := HandleDrop(ss.game, col);
            Inv(Session(a.state, false, a.landed))
  {
    var s := ss.game;
    var a := HandleDrop(s, col);
    if a.landed.Some? {
      Board.DropKeepsValid(s.board, col, s.currentPlayer);
      Board.DropCounts(s.board, col, s.currentPlayer);
    }
  }

  lemma CompleteKeepsInv(ss: Session)
    requires Inv(ss) && ss.inFlight.Some?
    ensures Inv(Session(CompleteDrop(ss.game, ss.inFlight.value), ss.inSetup, None))
  {
    var s := ss.game;
    var at := ss.inFlight.value;
    Board.WinRunHolds(s.board, at.row, at.col, s.currentPlayer);
  }

  lemma HoverKeepsInv(ss: Session, col: int)
    requires Inv(ss)
    ensures Inv(ss.(game := Hover(ss.game, col)))
  {
  }

  lemma LeaveKeepsInv(ss: Session)
    requires Inv(ss)
    ensures Inv(ss.(game := ss.game.(hoverCol := None)))
  {
  }

  lemma ResetKeepsInv(ss: Session)
    requires Inv(ss) && !ss.game.resetDisabled
    ensures Inv(ss.(game := Reset(ss.game)))
  {
  }

  lemma StartKeepsInv(ss: Session, n1: string, n2: string)
    requires Inv(ss) && !ss.game.animating
    ensures Inv(Session(StartGame(ss.game, n1, n2), false, ss.inFlight))
  {
  }

  /** Every event keeps the invariant. */
  lemma NextKeepsInv(ss: Session, e: Event)
    requires Inv(ss)
    ensures Inv(Next(ss, e))
  {
    match e
    case Start(n1, n2) =>
      if ss.inSetup {
        StartKeepsInv(ss, n1, n2);
      }
    case Click(col) =>
      if !(ss.inSetup || ss.game.gameOver || ss.game.animating || !(0 <= col < COLS)) {
        AcceptKeepsInv(ss, col);
      }
    case MouseMove(col) =>
      if !ss.inSetup {
        HoverKeepsInv(ss, col);
      }
    case MouseLeave =>
      if !ss.inSetup {
        LeaveKeepsInv(ss);
      }
    case AnimationDone =>
      if ss.inFlight.Some? {
        CompleteKeepsInv(ss);
      }
    case ResetClick =>
      if !ss.game.resetDisabled {
        ResetKeepsInv(ss);
      }
  }

  /** Every session reachable from the loaded page satisfies the invariant:
      in particular `resetButton.disabled == !gameOver` always, and the lock
      is held exactly while one completion callback is pending. */
  lemma {:induction false} ReachableInv(events: seq<Event>)
    ensures Inv(Replay(events))
  {
    if |events| == 0 {
      BootInv();
    } else {
      ReachableInv(events[..|events| - 1]);
      NextKeepsInv(Replay(events[..|events| - 1]), events[|events| - 1]);
    }
  }

  /** While a drop is animated, and after the end of the game, clicks and
      mouse moves change nothing. */
  lemma LockedIgnoresInput(ss: Session, e: Event)
    requires Inv(ss) && (ss.game.animating || ss.game.gameOver)
    requires e.Click? || e.MouseMove?
    ensures Next(ss, e) == ss
  {
  }

  /** Scores move only when a completed drop wins, by one point for the
      mover, and are zeroed only by the start of a match. */
  lemma ScoresChangeOnlyOnWin(ss: Session, e: Event)
    requires Inv(ss)
    ensures var r := Next(ss, e);
            || r.game.scores == ss.game.scores
            || (e.AnimationDone? && r.game.status == WonBy(ss.game.currentPlayer)
                && r.game.scores == ss.game.scores.Win(ss.game.currentPlayer))
            || (e.Start? && r.game.scores == ZERO_SCORES)
  {
  }

  /** Turns alternate strictly, player 1 first: whenever a player is to
      move, the pieces on the board are those of an alternating sequence of
      moves opened by player 1. */
  lemma ReachableTurnOrder(events: seq<Event>)
    ensures var g := Replay(events).game;
            !g.gameOver && !g.animating ==>
              g.board.grid.Count(1) == g.board.grid.Count(2) + (if g.currentPlayer == 1 then 0 else 1)
  {
    ReachableInv(events);
  }
}

=== FILE: grid.dfy ===
/** The ROWS x COLS integer grid both versions play on, the gravity
    invariant, piece counts, and the rays walked by win detection. */
module Grid {
  import opened Common

  /** Row 0 is the top row; row `rows - 1` is the bottom one. */
  datatype Grid = Grid(rows: nat, cols: nat, cells: seq<seq<int>>) {

    /** The grid has the declared shape. */
    predicate Valid() {
      |cells| == rows && forall r :: 0 <= r < rows ==> |cells[r]| == cols
    }

    predicate InBounds(r: int, c: int) {
      0 <= r < rows && 0 <= c < cols
    }

    /** Every cell is empty or holds a player. */
    predicate CellsOk()
      requires Valid()
    {
      forall r, c :: 0 <= r < rows && 0 <= c < cols ==> 0 <= cells[r][c] <= 2
    }

    /** Gravity: the filled cells of each column are contiguous from the
        bottom, so every cell below an occupied cell is occupied. */
    predicate Gravity()
      requires Valid()
    {
      forall r1, r2, c :: 0 <= r1 <= r2 < rows && 0 <= c < cols && cells[r1][c] != EMPTY ==> cells[r2][c] != EMPTY
    }

    /** `board.every(r => r.every(c => c !== 0))` */
    predicate Full()
      requires Valid()
    {
      forall r, c :: 0 <= r < rows && 0 <= c < cols ==> cells[r][c] != EMPTY
    }

    /** `board[0][col] === 0`, where an out-of-range column reads as
        `undefined` and so is never empty. */
    predicate TopEmpty(col: int)
      requires Valid() && rows > 0
    {
      0 <= col < cols && cells[0][col] == EMPTY
    }

    /** `board[r][c] = v` */
    function Put(r: int, c: int, v: int): (g: Grid)
      requires Valid() && InBounds(r, c)
      ensures g.Valid() && g.rows == rows && g.cols == cols
      ensures g.cells[r][c] == v
      ensures forall i, j :: InBounds(i, j) && (i != r || j != c) ==> g.cells[i][j] == cells[i][j]
    {
      Grid(rows, cols, cells[r := cells[r][c := v]])
    }

    /** How many cells hold `v`. */
    function Count(v: int): nat {
      CountCells(cells, v)
    }
  }

  /** `Array(rows).fill().map(() => Array(cols).fill(0))` */
  function Empty(rows: nat, cols: nat): (g: Grid)
    ensures g.Valid() && g.rows == rows && g.cols == cols
    ensures forall r, c :: g.InBounds(r, c) ==> g.cells[r][c] == EMPTY
  {
    Grid(rows, cols, seq(rows, _ => seq(cols, _ => EMPTY)))
  }

  /** An empty grid is well formed, obeys gravity and holds no piece. */
  lemma EmptyIsClean(rows: nat, cols: nat)
    ensures Empty(rows, cols).CellsOk() && Empty(rows, cols).Gravity()
    ensures Empty(rows, cols).Count(1) == 0 && Empty(rows, cols).Count(2) == 0
  {
    var g := Empty(rows, cols);
    CountAllEmpty(g.cells, 1);
    CountAllEmpty(g.cells, 2);
  }

  // ---------------------------------------------------------------------
  // Piece counts

  function Ind(b: bool): nat {
    if b then 1 else 0
  }

  function CountRow(row: seq<int>, v: int): nat {
    if |row| == 0 then 0 else Ind(row[0] == v) + CountRow(row[1..], v)
  }

  function CountCells(cells: seq<seq<int>>, v: int): nat {
    if |cells| == 0 then 0 else CountRow(cells[0], v) + CountCells(cells[1..], v)
  }

  /** Changing one entry of a row moves the count by that entry alone. */
  lemma {:induction false} CountRowUpdate(row: seq<int>, i: int, x: int, v: int)
    requires 0 <= i < |row|
    ensures CountRow(row[i := x], v) + Ind(row[i] == v) == CountRow(row, v) + Ind(x == v)
    decreases |row|
  {
    if i == 0 {
      assert row[i := x][1..] == row[1..];
    } else {
      assert row[i := x][1..] == row[1..][i - 1 := x];
      CountRowUpdate(row[1..], i - 1, x, v);
    }
  }

  /** Changing one cell of a grid moves the count by that cell alone. */
  lemma {:induction false} CountCellsUpdate(cells: seq<seq<int>>, r: int, c: int, x: int, v: int)
    requires 0 <= r < |cells| && 0 <= c < |cells[r]|
    ensures CountCells(cells[r := cells[r][c := x]], v) + Ind(cells[r][c] == v)
         == CountCells(cells, v) + Ind(x == v)
    decreases |cells|
  {
    var updated := cells[r := cells[r][c := x]];
    if r == 0 {
      assert updated[1..] == cells[1..];
      CountRowUpdate(cells[0], c, x, v);
    } else {
      assert updated[1..] == cells[1..][r - 1 := cells[r][c := x]];
      CountCellsUpdate(cells[1..], r - 1, c, x, v);
    }
  }

  lemma {:induction false} CountRowAllEmpty(row: seq<int>, v: int)
    requires v != EMPTY
    requires forall j :: 0 <= j < |row| ==> row[j] == EMPTY
    ensures CountRow(row, v) == 0
    decreases |row|
  {
    if |row| > 0 {
      CountRowAllEmpty(row[1..], v);
    }
  }

  lemma {:induction false} CountAllEmpty(cells: seq<seq<int>>, v: int)
    requires v != EMPTY
    requires forall i, j :: 0 <= i < |cells| && 0 <= j < |cells[i]| ==> cells[i][j] == EMPTY
    ensures CountCells(cells, v) == 0
    decreases |cells|
  {
    if |cells| > 0 {
      CountRowAllEmpty(cells[0], v);
      CountAllEmpty(cells[1..], v);
    }
  }

  /** The pieces on the grid are consistent with `toMove` being the player
      whose turn it is, when player 1 always opens: equal counts before a
      move of player 1, one extra piece of player 1 before a move of player 2. */
  predicate Balanced(g: Grid, toMove: Player) {
    g.Count(1) == g.Count(2) + (if toMove == 1 then 0 else 1)
  }

  /** Placing a piece of the player to move hands the move to the other one. */
  lemma PutPassesTurn(g: Grid, r: int, c: int, p: Player)
    requires g.Valid() && g.InBounds(r, c) && g.cells[r][c] == EMPTY
    requires Balanced(g, p)
    ensures Balanced(g.Put(r, c, p), Other(p))
  {
    CountCellsUpdate(g.cells, r, c, p, 1);
    CountCellsUpdate(g.cells, r, c, p, 2);
  }

  // ---------------------------------------------------------------------
  // Directions and rays

  /** A step `[dx, dy]` of the source: `dx` moves the row, `dy` the column. */
  datatype Dir = Dir(dr: int, dc: int)

  predicate Unit(d: Dir) {
    -1 <= d.dr <= 1 && -1 <= d.dc <= 1 && (d.dr != 0 || d.dc != 0)
  }

  /** One entry of `directions`: two opposite rays from the centre. */
  datatype Axis = Axis(fwd: Dir, back: Dir)

  /** The four axes, in the order they are tried: horizontal, vertical,
      then the diagonals along `[1, 1]` and `[1, -1]`. */
  const Axes: seq<Axis> := [
    Axis(Dir(0, 1), Dir(0, -1)),
    Axis(Dir(1, 0), Dir(-1, 0)),
    Axis(Dir(1, 1), Dir(-1, -1)),
    Axis(Dir(1, -1), Dir(-1, 1))
  ]

  lemma AxesAreOpposite(i: int)
    requires 0 <= i < |Axes|
    ensures Unit(Axes[i].fwd) && Unit(Axes[i].back)
    ensures Axes[i].back == Dir(-Axes[i].fwd.dr, -Axes[i].fwd.dc)
  {
  }

  /** The cell `k` steps from `p` along `d`. */
  function Along(p: Pos, d: Dir, k: int): Pos {
    Pos(p.row + k * d.dr, p.col + k * d.dc)
  }

  lemma AlongTwice(p: Pos, d: Dir, m: int, n: int)
    ensures Along(Along(p, d, m), d, n) == Along(p, d, m + n)
  {
    assert m * d.dr + n * d.dr == (m + n) * d.dr;
    assert m * d.dc + n * d.dc == (m + n) * d.dc;
  }

  /** Walking `k` steps from the cell after `p` is walking `k + 1` steps
      from `p`, for every `k` up to `n`. */
  lemma AlongShift(p: Pos, d: Dir, n: nat)
    ensures forall k :: 0 <= k <= n ==> Along(Along(p, d, 1), d, k) == Along(p, d, k + 1)
  {
    forall k | 0 <= k <= n
      ensures Along(Along(p, d, 1), d, k) == Along(p, d, k + 1)
    {
      AlongTwice(p, d, 1, k);
    }
  }

  /** The cell is on the grid and holds `player`. */
  predicate Holds(g: Grid, p: Pos, player: int)
    requires g.Valid()
  {
    g.InBounds(p.row, p.col) && g.cells[p.row][p.col] == player
  }

  /** Steps left before a walk along `d` from (r, c) leaves the grid. */
  function Reach(g: Grid, r: int, c: int, d: Dir): int {
    if d.dr == 1 then g.rows - r
    else if d.dr == -1 then r + 1
    else if d.dc == 1 then g.cols - c
    else c + 1
  }

  /** The inner `while` of `checkWin`: the cells walked from `start` along
      `d` while they are on the grid and hold `player`. */
  function Ray(g: Grid, start: Pos, d: Dir, player: int): (cells: seq<Pos>)
    requires g.Valid() && Unit(d)
    ensures forall k :: 0 <= k < |cells| ==> cells[k] == Along(start, d, k) && Holds(g, cells[k], player)
    ensures !Holds(g, Along(start, d, |cells|), player)
    decreases Reach(g, start.row, start.col, d)
  {
    if Holds(g, start, player) then
      var rest := Ray(g, Along(start, d, 1), d, player);
      AlongShift(start, d, |rest|);
      [start] + rest
    else
      []
  }
}

=== FILE: names.dfy ===
/** Player names as entered in the setup form: `input.value.trim() || default`. */
module Names {

  const DEFAULT_NAME_1: string := "Joueur 1"
  const DEFAULT_NAME_2: string := "Joueur 2"

  /** The characters `String.prototype.trim` removes: ECMAScript WhiteSpace
      (tab, vertical tab, form feed, no-break space, byte order mark and every
      space separator) and LineTerminator (LF, CR, U+2028, U+2029). */
  predicate IsSpace(ch: char) {
    || ch == '\t' || ch == '\n' || ch == '\U{000B}' || ch == '\U{000C}' || ch == '\r'
    || ch == ' ' || ch == '\U{00A0}' || ch == '\U{1680}'
    || ('\U{2000}' <= ch <= '\U{200A}')
    || ch == '\U{2028}' || ch == '\U{2029}' || ch == '\U{202F}' || ch == '\U{205F}'
    || ch == '\U{3000}' || ch == '\U{FEFF}'
  }

  /** Every character of `s` from `lo` up to (not including) `hi` is white space. */
  predicate SpaceBetween(s: string, lo: int, hi: int)
    requires 0 <= lo <= hi <= |s|
  {
    forall k :: lo <= k < hi ==> IsSpace(s[k])
  }

  predicate AllSpace(s: string) {
    SpaceBetween(s, 0, |s|)
  }

  /** The index of the first character at or after `i` that is not white
      space, or `|s|` when there is none. */
  function SkipStart(s: string, i: nat): (k: nat)
    requires i <= |s|
    ensures i <= k <= |s| && SpaceBetween(s, i, k)
    ensures k == |s| || !IsSpace(s[k])
    decreases |s| - i
  {
    if i < |s| && IsSpace(s[i]) then SkipStart(s, i + 1) else i
  }

  /** The index just past the last character before `j` that is not white
      space, going no lower than `lo`. */
  function SkipEnd(s: string, lo: nat, j: nat): (k: nat)
    requires lo <= j <= |s|
    ensures lo <= k <= j && SpaceBetween(s, k, j)
    ensures k == lo || !IsSpace(s[k - 1])
  {
    if j > lo && IsSpace(s[j - 1]) then SkipEnd(s, lo, j - 1) else j
  }

  /** `s.trim()`: the middle of `s` left after removing white space from both
      ends; it is empty exactly when `s` is all white space. */
  function Trim(s: string): (r: string)
    ensures exists i, j :: 0 <= i <= j <= |s| && r == s[i..j] && SpaceBetween(s, 0, i) && SpaceBetween(s, j, |s|)
    ensures r == [] || (!IsSpace(r[0]) && !IsSpace(r[|r| - 1]))
    ensures r == [] <==> AllSpace(s)
  {
    var i := SkipStart(s, 0);
    var j := SkipEnd(s, i, |s|);
    assert i < j ==> s[i..j][0] == s[i] && s[i..j][j - i - 1] == s[j - 1];
    s[i..j]
  }

  /** `input.trim() || fallback`: a blank entry falls back to the default. */
  function NameOrDefault(input: string, fallback: string): (name: string)
    ensures !AllSpace(input) ==> name == Trim(input)
    ensures AllSpace(input) ==> name == fallback
  {
    var t := Trim(input);
    if t == [] then fallback else t
  }

  /** A name picked at setup is never empty and carries no surrounding white
      space: either it is the trimmed entry or it is the default. */
  lemma NameIsClean(input: string, fallback: string)
    requires fallback == DEFAULT_NAME_1 || fallback == DEFAULT_NAME_2
    ensures NameOrDefault(input, fallback) != []
    ensures !IsSpace(NameOrDefault(input, fallback)[0])
    ensures !IsSpace(NameOrDefault(input, fallback)[|NameOrDefault(input, fallback)| - 1])
  {
  }
}

=== FILE: puissance4.dfy ===
/** The single-class version of the game (`class Puissance4`): the same rules
    in one synchronous step, with no animation lock, and a `checkWin` that
    counts aligned cells instead of collecting them. */
module Puissance4 {
  import opened Common
  import opened Grid
  import opened Names
  import Board
  import Game

  const ROWS: nat := 6
  const COLS: nat := 7

  datatype State = State(
    grid: Grid,
    currentPlayer: Player,
    gameOver: bool,
    hoverCol: Option<int>,
    player1Name: string,
    player2Name: string,
    scores: Scores,
    status: Status,
    /** `resetButton.disabled` */
    resetDisabled: bool)

  predicate Shaped(s: State) {
    s.grid.Valid() && s.grid.rows == ROWS && s.grid.cols == COLS
  }

  /** The state every event keeps. */
  predicate Valid(s: State) {
    && Shaped(s)
    && s.grid.CellsOk() && s.grid.Gravity()
    && s.resetDisabled == !s.gameOver
    && (s.hoverCol.Some? ==> !s.gameOver && s.grid.TopEmpty(s.hoverCol.value))
    && (!s.gameOver ==> s.status == TurnOf(s.currentPlayer))
    && (s.gameOver ==> s.status == WonBy(s.currentPlayer) || s.status == Drawn)
    && Balanced(s.grid, if s.gameOver then Other(s.currentPlayer) else s.currentPlayer)
  }

  /** The constructor. */
  function Init(): (s: State)
    ensures Valid(s)
    ensures forall r, c :: s.grid.InBounds(r, c) ==> s.grid.cells[r][c] == EMPTY
    ensures s.currentPlayer == 1 && !s.gameOver && s.hoverCol.None? && s.scores == ZERO_SCORES
    ensures s.player1Name == DEFAULT_NAME_1 && s.player2Name == DEFAULT_NAME_2
  {
    EmptyIsClean(ROWS, COLS);
    State(Empty(ROWS, COLS), 1, false, None, DEFAULT_NAME_1, DEFAULT_NAME_2, ZERO_SCORES, TurnOf(1), true)
  }

  // ---------------------------------------------------------------------
  // checkWin

  /** The `count++` loop along `d` from (r, c): how many cells in a row from
      there are on the board and hold `player`. */
  function CountRay(g: Grid, r: int, c: int, d: Dir, player: int): nat
    requires g.Valid() && Unit(d)
    decreases Reach(g, r, c, d)
  {
    if g.InBounds(r, c) && g.cells[r][c] == player then
      1 + CountRay(g, r + d.dr, c + d.dc, d, player)
    else
      0
  }

  /** Counting a walk gives the number of cells the modular board collects
      on the same walk. */
  lemma {:induction false} CountRayIsRayLength(g: Grid, r: int, c: int, d: Dir, player: int)
    requires g.Valid() && Unit(d)
    ensures CountRay(g, r, c, d, player) == |Ray(g, Pos(r, c), d, player)|
    decreases Reach(g, r, c, d)
  {
    if g.InBounds(r, c) && g.cells[r][c] == player {
      CountRayIsRayLength(g, r + d.dr, c + d.dc, d, player);
      assert Along(Pos(r, c), d, 1) == Pos(r + d.dr, c + d.dc);
    }
  }

  /** `count` after both walks of one axis: the centre plus the two walks. */
  function CountAxis(g: Grid, row: int, col: int, a: Axis, player: int): nat
    requires g.Valid() && Unit(a.fwd) && Unit(a.back)
  {
    1 + CountRay(g, row + a.fwd.dr, col + a.fwd.dc, a.fwd, player)
      + CountRay(g, row + a.back.dr, col + a.back.dc, a.back, player)
  }

  /** The count of an axis is the length of the run the modular board
      collects on it. */
  lemma {:induction false} CountAxisIsRunLength(g: Grid, row: int, col: int, a: Axis, player: int)
    requires g.Valid() && Unit(a.fwd) && Unit(a.back)
    ensures CountAxis(g, row, col, a, player) == |Board.Run(g, Pos(row, col), a, player)|
  {
    var pf := Along(Pos(row, col), a.fwd, 1);
    var pb := Along(Pos(row, col), a.back, 1);
    assert pf == Pos(row + a.fwd.dr, col + a.fwd.dc);
    assert pb == Pos(row + a.back.dr, col + a.back.dc);
    assert CountAxis(g, row, col, a, player)
        == 1 + CountRay(g, pf.row, pf.col, a.fwd, player) + CountRay(g, pb.row, pb.col, a.back, player);
    CountRayIsRayLength(g, pf.row, pf.col, a.fwd, player);
    CountRayIsRayLength(g, pb.row, pb.col, a.back, player);
    assert |Board.Run(g, Pos(row, col), a, player)| == 1 + |Ray(g, pf, a.fwd, player)| + |Ray(g, pb, a.back, player)|;
  }

  /** `count` for entry `i` of `directions`. */
  function AxisCount(g: Grid, row: int, col: int, player: int, i: int): nat
    requires g.Valid() && 0 <= i < |Axes|
  {
    AxesAreOpposite(i);
    CountAxis(g, row, col, Axes[i], player)
  }

  lemma AxisCountIsRunLength(g: Grid, row: int, col: int, player: int, i: int)
    requires g.Valid() && 0 <= i < |Axes|
    ensures AxisCount(g, row, col, player, i) == |Board.AxisRun(g, Pos(row, col), i, player)|
  {
    AxesAreOpposite(i);
    CountAxisIsRunLength(g, row, col, Axes[i], player);
  }

  /** The `for (const direction of directions)` loop from axis `i` on. */
  function CheckWinFrom(g: Grid, row: int, col: int, player: int, i: int): (won: bool)
    requires g.Valid() && 0 <= i <= |Axes|
    ensures won <==> exists j :: i <= j < |Axes| && AxisCount(g, row, col, player, j) >= 4
    decreases |Axes| - i
  {
    if i == |Axes| then false
    else AxisCount(g, row, col, player, i) >= 4 || CheckWinFrom(g, row, col, player, i + 1)
  }

  /** `checkWin(row, col)` for the player to move. */
  function CheckWin(s: State, row: int, col: int): (won: bool)
    requires s.grid.Valid()
    ensures won <==> exists i :: 0 <= i < |Axes| && AxisCount(s.grid, row, col, s.currentPlayer, i) >= 4
  {
    CheckWinFrom(s.grid, row, col, s.currentPlayer, 0)
  }

  /** The boolean `checkWin` is true exactly when the modular
      `Board.checkWin` returns a run rather than null. */
  lemma CheckWinMatchesBoard(s: State, row: int, col: int)
    requires s.grid.Valid()
    ensures CheckWin(s, row, col)
        <==> Board.CheckWin(Board.State(s.grid, Board.LastMoves(None, None), []), row, col, s.currentPlayer).Some?
  {
    forall i | 0 <= i < |Axes| {
      AxisCountIsRunLength(s.grid, row, col, s.currentPlayer, i);
    }
  }

  /** `checkWin` is true exactly when some axis has a `LineThrough` for the
      player to move at (row, col). */
  lemma CheckWinIffLine(s: State, row: int, col: int)
    requires s.grid.Valid()
    ensures CheckWin(s, row, col)
        <==> exists i :: 0 <= i < |Axes| && Board.LineThrough(s.grid, Pos(row, col), s.currentPlayer, Axes[i].fwd)
  {
    forall i | 0 <= i < |Axes|
      ensures AxisCount(s.grid, row, col, s.currentPlayer, i) >= 4
          <==> Board.LineThrough(s.grid, Pos(row, col), s.currentPlayer, Axes[i].fwd)
    {
      AxisCountIsRunLength(s.grid, row, col, s.currentPlayer, i);
      Board.RunIffLine(s.grid, Pos(row, col), i, s.currentPlayer);
    }
  }

  // ---------------------------------------------------------------------
  // dropPiece

  /** The board after the mover's piece lands at `row` of `col`. */
  function Placed(s: State, row: int, col: int): State
    requires s.grid.Valid() && s.grid.InBounds(row, col)
  {
    s.(grid := s.grid.Put(row, col, s.currentPlayer))
  }

  /** `dropPiece(col)`: the loop from the bottom row finds the same landing
      row as the modular board (a column off the board reads as `undefined`
      and is skipped); the piece is written there, then the move ends the
      game with a win or a draw, or hands the turn over. A full column, or
      one off the board, falls through the loop and changes nothing. */
  function DropPiece(s: State, col: int): (t: State)
    requires s.grid.Valid()
    ensures !Board.HasRoom(s.grid, col) ==> t == s
    ensures forall row :: Board.IsLanding(s.grid, col, row) ==>
              && t.grid == s.grid.Put(row, col, s.currentPlayer)
              && t.player1Name == s.player1Name && t.player2Name == s.player2Name
              // a win
              && (CheckWin(Placed(s, row, col), row, col) ==>
                    && t.gameOver && t.hoverCol.None? && !t.resetDisabled
                    && t.scores.Of(s.currentPlayer) == s.scores.Of(s.currentPlayer) + 1
                    && t.scores.Of(Other(s.currentPlayer)) == s.scores.Of(Other(s.currentPlayer))
                    && t.currentPlayer == s.currentPlayer && t.status == WonBy(s.currentPlayer))
              // a draw
              && (!CheckWin(Placed(s, row, col), row, col) && t.grid.Full() ==>
                    && t.gameOver && t.hoverCol.None? && !t.resetDisabled && t.scores == s.scores
                    && t.currentPlayer == s.currentPlayer && t.status == Drawn)
              // the game goes on
              && (!CheckWin(Placed(s, row, col), row, col) && !t.grid.Full() ==>
                    && t.gameOver == s.gameOver && t.resetDisabled == s.resetDisabled && t.scores == s.scores
                    && t.currentPlayer == Other(s.currentPlayer) && t.status == TurnOf(Other(s.currentPlayer))
                    && (t.hoverCol == Some(col) <==> t.grid.TopEmpty(col))
                    && (t.hoverCol.None? <==> !t.grid.TopEmpty(col)))
  {
    match Board.LandingRow(s.grid, col)
    case None => s
    case Some(row) => Settle(Placed(s, row, col), row, col)
  }

  /** What `dropPiece` does once the piece is written at (row, col): a win,
      a draw, or the turn handed over. */
  function Settle(placed: State, row: int, col: int): (t: State)
    requires placed.grid.Valid()
    ensures t.grid == placed.grid && t.player1Name == placed.player1Name && t.player2Name == placed.player2Name
    // a win
    ensures CheckWin(placed, row, col) ==>
              && t.gameOver && t.hoverCol.None? && !t.resetDisabled
              && t.scores.Of(placed.currentPlayer) == placed.scores.Of(placed.currentPlayer) + 1
              && t.scores.Of(Other(placed.currentPlayer)) == placed.scores.Of(Other(placed.currentPlayer))
              && t.currentPlayer == placed.currentPlayer && t.status == WonBy(placed.currentPlayer)
    // a draw
    ensures !CheckWin(placed, row, col) && placed.grid.Full() ==>
              && t.gameOver && t.hoverCol.None? && !t.resetDisabled && t.scores == placed.scores
              && t.currentPlayer == placed.currentPlayer && t.status == Drawn
    // the game goes on
    ensures !CheckWin(placed, row, col) && !placed.grid.Full() ==>
              && t.gameOver == placed.gameOver && t.resetDisabled == placed.resetDisabled && t.scores == placed.scores
              && t.currentPlayer == Other(placed.currentPlayer) && t.status == TurnOf(Other(placed.currentPlayer))
              && (placed.grid.TopEmpty(col) ==> t.hoverCol == Some(col))
              && (!placed.grid.TopEmpty(col) ==> t.hoverCol.None?)
  {
    var p := placed.currentPlayer;
    if CheckWin(placed, row, col) then
      placed.(gameOver := true, hoverCol := None, resetDisabled := false, status := WonBy(p), scores := placed.scores.Win(p))
    else if placed.grid.Full() then
      placed.(gameOver := true, hoverCol := None, resetDisabled := false, status := Drawn)
    else
      placed.(currentPlayer := Other(p), hoverCol := if placed.grid.TopEmpty(col) then Some(col) else None,
              status := TurnOf(Other(p)))
  }

  /** Gravity, the cell range, the reset-button rule, the hover rule and the
      turn order survive every drop made while the game is on. */
  lemma DropKeepsValid(s: State, col: int)
    requires Valid(s) && !s.gameOver
    ensures Valid(DropPiece(s, col))
  {
    var b := Board.State(s.grid, Board.LastMoves(None, None), []);
    var d := Board.DropPiece(b, col, s.currentPlayer);
    Board.DropKeepsValid(b, col, s.currentPlayer);
    if d.row.Some? {
      var row := d.row.value;
      assert d.board.grid == s.grid.Put(row, col, s.currentPlayer);
      PutPassesTurn(s.grid, row, col, s.currentPlayer);
    }
  }

  // ---------------------------------------------------------------------
  // Input handlers and the buttons

  /** `handleClick` with the mouse position already mapped to a column: ignored once
      the game is over or off the board, otherwise `dropPiece(col)`. */
  function Click(s: State, col: int): (t: State)
    requires s.grid.Valid()
    ensures s.gameOver ==> t == s
    ensures !(0 <= col < COLS) ==> t == s
    ensures !s.gameOver && 0 <= col < COLS ==> t == DropPiece(s, col)
  {
    if s.gameOver then s
    else if 0 <= col < COLS then DropPiece(s, col)
    else s
  }

  /** `handleMouseMove` with the mouse position already mapped to a column: ignored
      once the game is over; otherwise the preview shows the column exactly
      when it is on the board and its top cell is empty. */
  function MouseMove(s: State, col: int): (t: State)
    requires s.grid.Valid() && s.grid.rows > 0
    ensures s.gameOver ==> t == s
    ensures !s.gameOver ==>
              && t == s.(hoverCol := t.hoverCol)
              && (t.hoverCol == Some(col) <==> 0 <= col < COLS && s.grid.TopEmpty(col))
              && (t.hoverCol.None? <==> !(0 <= col < COLS && s.grid.TopEmpty(col)))
  {
    if s.gameOver then s
    else s.(hoverCol := if 0 <= col < COLS && s.grid.TopEmpty(col) then Some(col) else None)
  }

  /** `resetGame()`: an empty board, player 1 to move, the game on, no
      preview and the reset button disabled; names and scores are kept. */
  function ResetGame(s: State): (t: State)
    ensures Valid(t)
    ensures forall r, c :: t.grid.InBounds(r, c) ==> t.grid.cells[r][c] == EMPTY
    ensures t.currentPlayer == 1 && !t.gameOver && t.hoverCol.None? && t.resetDisabled && t.status == TurnOf(1)
    ensures t.scores == s.scores && t.player1Name == s.player1Name && t.player2Name == s.player2Name
  {
    EmptyIsClean(ROWS, COLS);
    s.(grid := Empty(ROWS, COLS), currentPlayer := 1, gameOver := false, hoverCol := None,
       status := TurnOf(1), resetDisabled := true)
  }

  /** `startGame()`: the trimmed names (defaults for blank entries), both
      scores zero, then `resetGame()`. */
  function StartGame(s: State, input1: string, input2: string): (t: State)
    ensures Valid(t)
    ensures t.player1Name == NameOrDefault(input1, DEFAULT_NAME_1)
    ensures t.player2Name == NameOrDefault(input2, DEFAULT_NAME_2)
    ensures t.scores == ZERO_SCORES
    ensures forall r, c :: t.grid.InBounds(r, c) ==> t.grid.cells[r][c] == EMPTY
    ensures t.currentPlayer == 1 && !t.gameOver && t.hoverCol.None? && t.resetDisabled
  {
    ResetGame(s.(player1Name := NameOrDefault(input1, DEFAULT_NAME_1),
                 player2Name := NameOrDefault(input2, DEFAULT_NAME_2),
                 scores := ZERO_SCORES))
  }

  /** The page: the game and whether the setup form is still shown. */
  datatype Page = Page(game: State, inSetup: bool)

  /** One event of the page; this version has no drop animation, so an
      animation completion has no listener. */
  function Next(pg: Page, e: Game.Event): (r: Page)
    requires Shaped(pg.game)
    ensures Shaped(r.game)
  {
    match e
    case Start(n1, n2) => if pg.inSetup then Page(StartGame(pg.game, n1, n2), false) else pg
    case Click(col) => if pg.inSetup then pg else pg.(game := Click(pg.game, col))
    case MouseMove(col) => if pg.inSetup then pg else pg.(game := MouseMove(pg.game, col))
    case MouseLeave => if pg.inSetup then pg else pg.(game := pg.game.(hoverCol := None))
    case AnimationDone => pg
    case ResetClick => if pg.game.resetDisabled then pg else pg.(game := ResetGame(pg.game))
  }

  /** The guards of the page: there is no animation to complete, board
      events do nothing while the setup form is shown, and a disabled reset
      button and a second start do nothing. */
  lemma InputGuards(pg: Page, e: Game.Event)
    requires Shaped(pg.game)
    ensures e.AnimationDone? ==> Next(pg, e) == pg
    ensures pg.inSetup && !e.Start? && !e.ResetClick? ==> Next(pg, e) == pg
    ensures pg.game.resetDisabled && e.ResetClick? ==> Next(pg, e) == pg
    ensures e.Start? && !pg.inSetup ==> Next(pg, e) == pg
  {
  }

  /** Every event keeps the game valid. */
  lemma NextKeepsValid(pg: Page, e: Game.Event)
    requires Valid(pg.game)
    ensures Valid(Next(pg, e).game)
  {
    if e.Click? && !pg.inSetup && !pg.game.gameOver && 0 <= e.col < COLS {
      DropKeepsValid(pg.game, e.col);
    }
  }

  // ---------------------------------------------------------------------
  // Agreement with the modular version

  /** What the single-class version tracks of a modular game state. */
  function Mirror(g: Game.State): State {
    State(g.board.grid, g.currentPlayer, g.gameOver, g.hoverCol, g.player1Name, g.player2Name,
          g.scores, g.status, g.resetDisabled)
  }

  /** The outcome after the write does not depend on the preview shown
      before it. */
  lemma SettleIgnoresHover(placed: State, row: int, col: int, hc: Option<int>)
    requires placed.grid.Valid()
    ensures Settle(placed.(hoverCol := hc), row, col) == Settle(placed, row, col)
  {
  }

  /** The single-class `checkWin` finds a win at `at` exactly when the
      modular completion callback does. */
  lemma WinAtMatches(h: Game.State, at: Pos)
    requires Game.Shaped(h)
    ensures CheckWin(Mirror(h), at.row, at.col) <==> Game.WinAt(h, at).Some?
  {
    CheckWinMatchesBoard(Mirror(h), at.row, at.col);
    assert Game.WinAt(h, at)
        == Board.CheckWin(Board.State(h.board.grid, Board.LastMoves(None, None), []), at.row, at.col, h.currentPlayer);
  }

  /** The outcome after the write is what the modular completion callback
      decides for the same board, once the accepted drop has cleared the
      preview. */
  lemma {:induction false} SettleMatchesComplete(h: Game.State, at: Pos)
    requires Game.Shaped(h) && h.hoverCol.None?
    ensures Settle(Mirror(h), at.row, at.col) == Mirror(Game.CompleteDrop(h, at))
  {
    WinAtMatches(h, at);
  }

  /** A synchronous click of this version ends in the same state as the
      modular version's accepted drop followed by its completion callback;
      a click the modular version ignores is ignored here too. */
  lemma SyncMatchesTwoPhase(g: Game.State, col: int)
    requires Game.Shaped(g) && !g.gameOver && !g.animating && 0 <= col < COLS
    ensures var a := Game.HandleDrop(g, col);
            Click(Mirror(g), col)
              == if a.landed.Some? then Mirror(Game.CompleteDrop(a.state, a.landed.value)) else Mirror(g)
  {
    var a := Game.HandleDrop(g, col);
    if a.landed.Some? {
      var at := a.landed.value;
      var placed := Placed(Mirror(g), at.row, col);
      assert Board.LandingRow(g.board.grid, col) == Some(at.row);
      assert placed == Mirror(a.state).(hoverCol := g.hoverCol);
      SettleIgnoresHover(Mirror(a.state), at.row, col, g.hoverCol);
      SettleMatchesComplete(a.state, at);
    }
  }

  /** `resetGame` and the modular `reset` agree on everything both track. */
  lemma ResetMatches(g: Game.State)
    requires Game.Shaped(g)
    ensures ResetGame(Mirror(g)) == Mirror(Game.Reset(g))
  {
  }

  /** The hover rules of both versions agree outside a drop animation. */
  lemma HoverMatches(g: Game.State, col: int)
    requires Game.Shaped(g) && !g.animating
    ensures MouseMove(Mirror(g), col) == Mirror(Game.Hover(g, col))
  {
  }
}
